=== FILE: README.md ===
# simple-mandelbrot, modelled in Dafny

This project models the integer and control-flow skeleton of a small Rust
program that renders the Mandelbrot set to a PNG image. It covers four parts:

- **Escape-time evaluator** `mandelbrot` (module `Evaluator`). It tests the
  magnitude of the current value, then updates it, then counts. It returns 0
  when the first test fails, the count at which the value escapes, or the
  sentinel -1 once the counter reaches the cap. The `f32` update
  `z := z*z + c` and the test `re*re + im*im <= 4.0` are abstracted into a
  `step` function and a `bounded` predicate over any state type. `PlaneStep` and
  `WithinRadius` instantiate both over exact reals, so that concrete points can
  be checked: the origin, `(2, 2)`, and `c = 1`, which lands exactly on the
  radius.
- **First pass** (module `Renderer`). `max` starts at 0 and takes every larger
  evaluator result, in pixel order (`MaxScan`).
- **Second pass** (modules `Colour` and `Renderer`). An inner pixel (result -1)
  is black. Every other pixel gets `(B / max as u8) * m as u8` for each channel
  `B`, in exact `u8` arithmetic. Division by zero is a panic. An overflowing
  multiplication panics in a debug build and wraps in a release build; the
  `Profile` parameter selects which.
- **`parse_arguments`** (module `Arguments`). This is a left-to-right pass over
  the command line with defaults `(2000, 100, Color(0, 255, 255))`. Each of
  `-s -i -r -g -b` overwrites its own field when the next token exists and its
  abstract parser accepts it. Value tokens are not consumed.

Module `Native` holds `i32`, `u8`, the `as u8` cast, `u8` division and
multiplication, and the `Outcome` type (a value, or a panic with its reason).

Two behaviours of the code differ from what its messages and names suggest, and
the model follows the code:

- A rejected flag value keeps the *current* value, not the default. A value
  accepted earlier for the same flag survives (`FallbackKeepsEarlierValue`),
  although the printed diagnostic says "default".
- The iteration cap is any `i32`, not only a positive one. A cap of 0 or less
  still lets the loop body run once, and the result is then 0 or -1.

## Model

| member | source | states |
|---|---|---|
| `Evaluator.Mandelbrot` | src/main.rs:74-95 | The loop returns -1 exactly when the first `max(1, iter_num)` states all pass the magnitude test. Otherwise it returns the index of the first state that fails. The body runs at most `max(1, iter_num)` times, and runs zero times exactly when the result is 0. |
| `Evaluator.EscapeFrom` | src/main.rs:81-92 | Entered mid-loop after `k` bounded updates, the loop still ends with the escape result of the starting point. |
| `Evaluator.EscapeTime` | src/main.rs:74-95 | The result is -1 or lies in `[0, max(1, iter_num))`. It is 0 exactly when the starting point fails the test. With a cap of at most 1 it is 0 or -1. |
| `Evaluator.Cap` | src/main.rs:86-91 | The loop body can run at least once and, for a positive cap, exactly `iter_num` times before the sentinel. |
| `Evaluator.EscapeResultUnique` | src/main.rs:74-95 | The escape result is determined by the orbit: at most one value satisfies its definition. |
| `Evaluator.ForeverBoundedIsSentinel` | src/main.rs:81-91 | A point whose whole orbit stays bounded gets -1. |
| `Evaluator.FixedPointIsSentinel` | src/main.rs:81-91 | A bounded fixed point of the update gets -1, whatever the cap. |
| `Evaluator.CapMonotone` | src/main.rs:86-91 | Raising the cap keeps an escape count already found. A point that got -1 under a smaller cap escapes, if at all, only at or after that cap. |
| `Evaluator.PlaneStep` | src/main.rs:83-84 | Over exact reals, one update from the origin reaches `c`. |
| `Evaluator.PlaneStepIsSquarePlusC` | src/main.rs:83-84 | The expanded update formula equals the complex product `z*z` plus `c`. |
| `Evaluator.WithinRadius` | src/main.rs:81 | Over exact reals, a value that passes the `<= 4.0` test lies in the square `[-2, 2] x [-2, 2]`. |
| `Evaluator.Mandel` | src/main.rs:74-95 | Over exact reals, the evaluator started at `c` returns -1 or a count below `max(1, iter_num)`, and returns 0 exactly when `c` has squared magnitude above 4. |
| `Evaluator.PixelStepIsMandel` | src/main.rs:41 | With a state that carries its pixel's own point `c`, one shared step function gives every pixel the count of its own point, as the per-pixel evaluator calls do. |
| `Evaluator.OriginNeverEscapes` | src/main.rs:76-94 | The origin gets -1 for every cap. |
| `Evaluator.OutsidePointIsZero` | src/main.rs:76-81 | The point `(2, 2)` gets 0 for every cap. The body never runs. |
| `Evaluator.BoundaryCountsAsBounded` | src/main.rs:81-94 | For `c = 1` the orbit is 1, 2, 5. The state 2 lies exactly on the radius and counts as bounded, so the result is 2 when the cap exceeds 2 and -1 otherwise. |
| `Native.AsU8` | src/main.rs:59-61 | `x as u8` is congruent to `x` modulo 256 and is the identity on `[0, 256)`. |
| `Native.DivU8` | src/main.rs:59-61 | `u8` division panics exactly on a zero divisor. Otherwise it returns the truncated quotient. |
| `Native.MulU8` | src/main.rs:59-61 | `u8` multiplication is exact when the product fits. Otherwise it panics in a debug build and is congruent to the product modulo 256 in a release build. |
| `Colour.Channel` | src/main.rs:59-61 | A channel panics with division by zero exactly when `max as u8` is 0. Otherwise, with `q = B / (max as u8)`: a successful channel is congruent to `q * (m as u8)` modulo 256, and equals it when the product is below 256. A debug build panics with an overflow exactly when the product reaches 256. |
| `Colour.Colorize` | src/main.rs:56-67 | Result -1 gives black for every base and `max`, with no panic. Any other result panics with division by zero exactly when `max as u8` is 0. On success each channel is that channel's scaled value. |
| `Colour.ChannelWithinBase` | src/main.rs:59-61 | For `0 <= m <= max < 256` and `max > 0`: no overflow, both profiles agree, the channel is exactly `(B / max) * m`, and it is at most `B`. |
| `Colour.ChannelDarkWhenMaxExceedsBase` | src/main.rs:59-61 | When `max as u8` exceeds the base channel, the channel is 0 for every result. |
| `Colour.ProfilesAgreeWithoutOverflow` | src/main.rs:59-61 | Whenever a debug build does not panic, a release build computes the same channel. |
| `Colour.WrappedMaxOverflows` | src/main.rs:59-61 | With `max = 257`, base 255 and result 2, the channel panics in a debug build and is 254 in a release build. |
| `Colour.ScaleChannel` | src/main.rs:59-61 | Linear scaling `B * m / max` never exceeds `B`. It is 0 for `m <= 0` or `max <= 0`, and exactly `B` once `m` reaches a positive `max`. |
| `Colour.ScaleMonotone` | src/main.rs:59-61 | Linear scaling never gets darker as the result grows. |
| `Colour.ColorizeScaled` | src/main.rs:56-67 | Under linear scaling the sentinel gives black, every channel stays within the base, and a pixel whose result reaches a positive `max` gets the base colour. |
| `Colour.TruncationNeverBrighter` | src/main.rs:59-61 | For `0 <= m <= max < 256`, dividing first never gives a brighter channel than linear scaling. |
| `Renderer.Sweep` | src/main.rs:36-53 | Both passes get one evaluator result per pixel, in visiting order, each -1 or below `max(1, iter_num)`. |
| `Renderer.MaxScan` | src/main.rs:30-46 | The first pass's `max` is at least 0 and at least every result, and it equals 0 or one of the results. |
| `Renderer.ScanMaxUnique` | src/main.rs:30-46 | Those three properties determine `max`. |
| `Renderer.MaxScanOrderIndependent` | src/main.rs:36-46 | Any reordering of the results gives the same `max`. |
| `Renderer.SentinelNeverChangesMax` | src/main.rs:41-45 | Inserting a -1 result anywhere leaves `max` unchanged. |
| `Renderer.FirstPassBound` | src/main.rs:30-46 | `max` lies in `[0, max(1, iter_num))`, so it is 0 when the cap is at most 1. |
| `Renderer.ColorizeAll` | src/main.rs:48-69 | The second pass succeeds exactly when every pixel colours without a panic. It then yields one colour per pixel, in order. Otherwise it fails with the panic of the first failing pixel. It panics with division by zero exactly when `max as u8` is 0 and some result is not -1. |
| `Renderer.Render` | src/main.rs:29-69 | On success the image has one pixel per point, every inner pixel is black, and every pixel is the colour `Colorize` gives its evaluator result under the first pass's `max`. Rendering succeeds exactly when every pixel colours without a panic. It panics with division by zero exactly when that `max as u8` is 0 and some pixel is not inner. Any other panic is an overflow in a debug build. |
| `Renderer.RenderWithinBase` | src/main.rs:56-63 | With a cap of at most 256 and a positive `max`: rendering succeeds, both profiles give the same image, every channel of a non-inner pixel is exactly `(B / max) * m`, and no channel exceeds the base colour's. |
| `Renderer.RenderPanicsWhenCapAtMostOne` | src/main.rs:59-61 | With a cap of at most 1 and some point that fails the first test, rendering panics with division by zero. |
| `Renderer.RenderScaled` | src/main.rs:48-69 | The linearly scaled renderer never panics. It keeps inner pixels black and every channel within the base, and gives the base colour to pixels whose result equals a positive `max`. |
| `Renderer.RenderNeverBrighterThanScaled` | src/main.rs:56-63 | With a cap of at most 256: whenever the program's renderer succeeds, none of its channels is brighter than the linearly scaled one, including the all-inner image with `max` 0. With a positive `max` it always succeeds. |
| `Arguments.FlagOf` | src/main.rs:119-205 | A token names a flag only by matching its spelling exactly. Any other token names none. |
| `Arguments.Assign` | src/main.rs:121-203 | A flag with a value token sets its own field to the parsed value when parsing succeeds and keeps it otherwise. Every other field is unchanged. |
| `Arguments.Visit` | src/main.rs:113-207 | One loop step changes a field exactly when that argument sets it: the argument is not argument 0, it is the field's flag, a next token exists, and that token parses. The program path, unknown tokens and a trailing flag change nothing. |
| `Arguments.ParseArguments` | src/main.rs:97-215 | With no argument beyond the program path, or none at all, the result is `(2000, 100, Color(0, 255, 255))`. |
| `Arguments.LastSetter` | src/main.rs:113-208 | Finds the last argument below `n` that sets a field, with no later one; or reports that there is none. |
| `Arguments.Prefix` | src/main.rs:113-208 | After the loop has visited any prefix of the command line, each field holds the value parsed at its last setter so far, or its default. |
| `Arguments.LastOccurrenceWins` | src/main.rs:97-215 | Each field of the result is the value parsed at the last occurrence of its flag with a parsable next token, or its default. |
| `Arguments.SameLastSettersSameConfig` | src/main.rs:97-215 | Two command lines whose five flags have the same last effective values give the same whole configuration. |
| `Arguments.ProgramPathIgnored` | src/main.rs:113-118 | Argument 0 never affects the result. |
| `Arguments.InvalidValueKeepsDefault` | src/main.rs:138-150 | `-i abc` and a trailing `-i` both leave the whole configuration at its defaults. |
| `Arguments.ValueTokenIsAlsoAFlag` | src/main.rs:119-205 | In `-i -g 7`, `-g` is rejected as an iteration count and is then read as the green flag, giving green 7. |
| `Arguments.LaterFlagOverrides` | src/main.rs:155-169 | In `-r 1 -r 2` the later occurrence wins, giving red 2. |
| `Arguments.FallbackKeepsEarlierValue` | src/main.rs:138-150 | In `-i 50 -i abc` the rejected value keeps 50, not the default 100. |

## Findings

| source | as written | input that shows it | evidently intended | confidence | as-written member | corrected member |
|---|---|---|---|---|---|---|
| src/main.rs:59-61 | divides each base channel by `max as u8` | `-i 1`: every result is 0 or -1, so `max` stays 0. Pixel (0, 0) maps to (-2, -1.5), squared magnitude 6.25, result 0. Its colouring divides by zero and the program panics. | a colour scaled linearly from the result that never panics | not executed | `Renderer.RenderPanicsWhenCapAtMostOne` | `Renderer.RenderScaled` |
| src/main.rs:59-61 | casts `max` and `m` to `u8` before dividing and multiplying | a cap above 257 with `max = 257`, base 255 and `m = 2`: the divisor wraps to 1 and `255 * 2` overflows. A debug build panics; a release build gives 254, far brighter than its linear value `255 * 2 / 257 = 1`. | scaling in wide arithmetic: `B * m / max`, at most `B`; the corrected member rounds this quotient down rather than to nearest | not executed | `Colour.WrappedMaxOverflows` | `Colour.ScaleChannel` |

`Render` itself keeps the program's arithmetic, because the program's observable
behaviour is what it models. `RenderScaled` is the corrected renderer, and
`RenderNeverBrighterThanScaled` relates the two wherever the program succeeds
with a cap of at most 256; above that cap the wrapped casts can make the
program brighter, as the second finding shows.

## Left out

- Floating point: the complex update (src/main.rs:83-84) and the magnitude test
  (src/main.rs:81). They are the abstract `step` and `bounded`. The exact-real
  instantiation agrees with `f32` only on inputs that `f32` computes exactly,
  such as the three example points.
- The pixel-to-plane mapping (src/main.rs:38-39, 50-51). It is floating point.
  The renderer takes each pixel's evaluator starting state as input, in the
  order `enumerate_pixels` visits them. One step function serves all pixels, so
  the state carries the pixel's own point `c`.
- The `image` crate (src/main.rs:2, 32, 36, 48, 71): buffer creation, pixel
  enumeration and `save`. These are foreign calls and file I/O. The image is a
  sequence of colours, and the `f32` to `u32` size cast is not modelled.
- `env::args` and every `println!` (src/main.rs:22, 110-111, 129-212). These are
  process I/O. The model returns only the configuration.
- The `f32` fields of the `Complex` struct (src/main.rs:6-18). `Evaluator.Complex`
  replaces the struct with a pair of exact reals.
- The internals of `str::parse::<f32>`, `<i32>` and `<u8>`. They are abstract
  partial functions in `Parsers`.
- `Arguments.ParseArguments`: the size is a `real`, so the `f32` values NaN and
  infinity, which the parser can produce, cannot be represented.
- Determinism of two renders: every operation is a pure function, so two
  renders with equal arguments are equal by construction. No lemma states it.

=== FILE: arguments.dfy ===
/** `parse_arguments` (src/main.rs:97-215): a left-to-right pass over the command
    line that starts from the defaults and lets each recognised flag overwrite its
    own field when the token after it exists and parses.

    The library parsers `str::parse::<f32>`, `<i32>` and `<u8>` are abstract
    partial functions, bundled in `Parsers`. An `f32` size is modelled as a `real`. */
module Arguments {
  import opened Native
  import opened Colour

  /** The configuration `(size, iteration, color)` the pass returns. */
  datatype Config = Config(size: real, iteration: i32, color: Color)

  /** The starting values: 2000 px, 100 iterations, colour (0, 255, 255). */
  const Defaults := Config(2000.0, 100, Color(0, 255, 255))

  /** The library parsers for the three numeric types. */
  datatype Parsers = Parsers(
    parseF32: string -> Option<real>,
    parseI32: string -> Option<i32>,
    parseU8: string -> Option<u8>)

  /** The five recognised flags. */
  datatype Flag = Size | Iteration | Red | Green | Blue

  /** The token that names a flag. */
  function Token(f: Flag): string
  {
    match f
    case Size => "-s"
    case Iteration => "-i"
    case Red => "-r"
    case Green => "-g"
    case Blue => "-b"
  }

  /** The flag a token names, if any: the token must match exactly. */
  function FlagOf(token: string): (r: Option<Flag>)
    ensures r.Some? ==> Token(r.value) == token
    ensures r.None? ==> forall f: Flag :: Token(f) != token
  {
    if token == "-s" then Some(Size)
    else if token == "-i" then Some(Iteration)
    else if token == "-r" then Some(Red)
    else if token == "-g" then Some(Green)
    else if token == "-b" then Some(Blue)
    else None
  }

  /** The value of one field of a configuration, whatever its type. */
  datatype Value = Real(x: real) | Int(n: int)

  /** The field a flag sets. */
  function Get(c: Config, f: Flag): Value
  {
    match f
    case Size => Real(c.size)
    case Iteration => Int(c.iteration as int)
    case Red => Int(c.color.r as int)
    case Green => Int(c.color.g as int)
    case Blue => Int(c.color.b as int)
  }

  /** A configuration is determined by its five fields. */
  lemma ConfigByFields(c: Config, d: Config)
    requires forall f: Flag :: Get(c, f) == Get(d, f)
    ensures c == d
  {
    assert Get(c, Size) == Get(d, Size);
    assert Get(c, Iteration) == Get(d, Iteration);
    assert Get(c, Red) == Get(d, Red);
    assert Get(c, Green) == Get(d, Green);
    assert Get(c, Blue) == Get(d, Blue);
  }

  /** What the flag's parser makes of a token, as a field value. */
  function Parsed(p: Parsers, f: Flag, token: string): Option<Value>
  {
    match f
    case Size => (match p.parseF32(token) case Some(x) => Some(Real(x)) case None => None)
    case Iteration => (match p.parseI32(token) case Some(n) => Some(Int(n as int)) case None => None)
    case _ => (match p.parseU8(token) case Some(n) => Some(Int(n as int)) case None => None)
  }

  /** One flag with its value token: the flag's field takes the parsed value when
      the parse succeeds and is kept otherwise; every other field is kept. */
  function Assign(p: Parsers, f: Flag, token: string, c: Config): (d: Config)
    ensures forall g: Flag :: g != f ==> Get(d, g) == Get(c, g)
    ensures Get(d, f) == (match Parsed(p, f, token) case Some(v) => v case None => Get(c, f))
  {
    match f
    case Size => (match p.parseF32(token) case Some(x) => c.(size := x) case None => c)
    case Iteration => (match p.parseI32(token) case Some(n) => c.(iteration := n) case None => c)
    case Red => (match p.parseU8(token) case Some(n) => c.(color := c.color.(r := n)) case None => c)
    case Green => (match p.parseU8(token) case Some(n) => c.(color := c.color.(g := n)) case None => c)
    case Blue => (match p.parseU8(token) case Some(n) => c.(color := c.color.(b := n)) case None => c)
  }

  /** Argument `k` sets flag `f`'s field: it is not the program path, it is the
      flag's token, a next token exists, and that token parses. */
  predicate Sets(p: Parsers, args: seq<string>, f: Flag, k: nat)
  {
    1 <= k && k + 1 < |args| && args[k] == Token(f) && Parsed(p, f, args[k + 1]).Some?
  }

  /** The loop body for argument `i`: argument 0 (the program path) and
      unrecognised tokens are skipped, a flag with no next token keeps the
      configuration, and the next token is read but not consumed. */
  function Visit(p: Parsers, args: seq<string>, i: nat, c: Config): (d: Config)
    requires i < |args|
    ensures i == 0 || FlagOf(args[i]).None? || i + 1 == |args| ==> d == c
    ensures forall g: Flag :: Get(d, g) == if Sets(p, args, g, i) then Parsed(p, g, args[i + 1]).value else Get(c, g)
  {
    if i == 0 then c
    else
      match FlagOf(args[i])
      case None => c
      case Some(f) => if i + 1 < |args| then Assign(p, f, args[i + 1], c) else c
  }

  /** The configuration after the loop has visited arguments `0 .. n-1`: each
      field holds the value parsed at its last setter so far, or its default. */
  function Prefix(p: Parsers, args: seq<string>, n: nat): (c: Config)
    requires n <= |args|
    ensures forall f: Flag :: Get(c, f) == Expected(p, args, f, n)
  {
    if n == 0 then Defaults else Visit(p, args, n - 1, Prefix(p, args, n - 1))
  }

  /** `parse_arguments(args)`. */
  function ParseArguments(p: Parsers, args: seq<string>): (c: Config)
    ensures |args| <= 1 ==> c == Defaults
  {
    if |args| == 1 then Defaults else Prefix(p, args, |args|)
  }

  /** The last argument below `n` that sets flag `f`'s field, if any. */
  function LastSetter(p: Parsers, args: seq<string>, f: Flag, n: nat): (r: Option<nat>)
    ensures r.Some? ==> r.value < n && Sets(p, args, f, r.value)
    ensures r.Some? ==> forall j :: r.value < j < n ==> !Sets(p, args, f, j)
    ensures r.None? ==> forall j :: 0 <= j < n ==> !Sets(p, args, f, j)
  {
    if n == 0 then None
    else if Sets(p, args, f, n - 1) then Some(n - 1)
    else LastSetter(p, args, f, n - 1)
  }

  /** The value a field ends with after the first `n` arguments: the value parsed
      at its last setter below `n`, or the default when there is none. */
  function Expected(p: Parsers, args: seq<string>, f: Flag, n: nat): Value
  {
    match LastSetter(p, args, f, n)
    case None => Get(Defaults, f)
    case Some(k) => Parsed(p, f, args[k + 1]).value
  }

  /** Every field of the returned configuration is the value parsed at the last
      occurrence of its flag that has a parsable next token, or the default. */
  lemma LastOccurrenceWins(p: Parsers, args: seq<string>, f: Flag)
    ensures Get(ParseArguments(p, args), f) == Expected(p, args, f, |args|)
  {
  }

  /** Two command lines whose flags have the same last effective values give the
      same configuration, whatever else they contain. */
  lemma SameLastSettersSameConfig(p: Parsers, xs: seq<string>, ys: seq<string>)
    requires forall f: Flag :: Expected(p, xs, f, |xs|) == Expected(p, ys, f, |ys|)
    ensures ParseArguments(p, xs) == ParseArguments(p, ys)
  {
    forall f: Flag ensures Get(ParseArguments(p, xs), f) == Get(ParseArguments(p, ys), f) {
      LastOccurrenceWins(p, xs, f);
      LastOccurrenceWins(p, ys, f);
    }
    ConfigByFields(ParseArguments(p, xs), ParseArguments(p, ys));
  }

  /** The program path in argument 0 is never read as a flag or as a value. */
  lemma {:induction false} ProgramPathIgnored(p: Parsers, a: string, b: string, rest: seq<string>)
    ensures ParseArguments(p, [a] + rest) == ParseArguments(p, [b] + rest)
  {
    PrefixIgnoresPath(p, [a] + rest, [b] + rest, |rest| + 1);
  }

  /** Two argument lists that differ at most in argument 0 give equal prefixes. */
  lemma {:induction false} PrefixIgnoresPath(p: Parsers, xs: seq<string>, ys: seq<string>, n: nat)
    requires |xs| == |ys| && n <= |xs|
    requires forall k :: 1 <= k < |xs| ==> xs[k] == ys[k]
    ensures Prefix(p, xs, n) == Prefix(p, ys, n)
  {
    if n > 0 {
      PrefixIgnoresPath(p, xs, ys, n - 1);
    }
  }

  /** A flag whose value token does not parse, or that has no value token at all,
      leaves the default in place. */
  lemma InvalidValueKeepsDefault(p: Parsers)
    requires p.parseI32("abc") == None
    ensures ParseArguments(p, ["mandelbrot", "-i", "abc"]) == Defaults
    ensures ParseArguments(p, ["mandelbrot", "-i"]) == Defaults
  {
    var args := ["mandelbrot", "-i", "abc"];
    assert FlagOf(args[1]) == Some(Iteration);
    assert FlagOf(args[2]) == None;
    assert Prefix(p, args, 1) == Defaults;
    assert Prefix(p, args, 2) == Defaults;
    var short := ["mandelbrot", "-i"];
    assert Prefix(p, short, 1) == Defaults;
  }

  /** Value tokens are not consumed: `-g` after `-i` is first rejected as an
      iteration count and then read as the green flag itself. */
  lemma ValueTokenIsAlsoAFlag(p: Parsers)
    requires p.parseI32("-g") == None && p.parseU8("7") == Some(7)
    ensures ParseArguments(p, ["mandelbrot", "-i", "-g", "7"]) == Defaults.(color := Color(0, 7, 255))
  {
    var args := ["mandelbrot", "-i", "-g", "7"];
    assert FlagOf(args[1]) == Some(Iteration);
    assert FlagOf(args[2]) == Some(Green);
    assert FlagOf(args[3]) == None;
    assert Prefix(p, args, 1) == Defaults;
    assert Prefix(p, args, 2) == Defaults;
    assert Prefix(p, args, 3) == Defaults.(color := Color(0, 7, 255));
  }

  /** A later occurrence of a flag overrides an earlier one. */
  lemma LaterFlagOverrides(p: Parsers)
    requires p.parseU8("1") == Some(1) && p.parseU8("2") == Some(2)
    ensures ParseArguments(p, ["mandelbrot", "-r", "1", "-r", "2"]) == Defaults.(color := Color(2, 255, 255))
  {
    var args := ["mandelbrot", "-r", "1", "-r", "2"];
    assert FlagOf(args[1]) == Some(Red);
    assert FlagOf(args[2]) == None;
    assert FlagOf(args[3]) == Some(Red);
    assert FlagOf(args[4]) == None;
    assert Prefix(p, args, 1) == Defaults;
    assert Prefix(p, args, 2) == Defaults.(color := Color(1, 255, 255));
    assert Prefix(p, args, 3) == Defaults.(color := Color(1, 255, 255));
    assert Prefix(p, args, 4) == Defaults.(color := Color(2, 255, 255));
  }

  /** A rejected value keeps the current value, which is not the default when the
      same flag was accepted earlier, although the diagnostic says "default". */
  lemma FallbackKeepsEarlierValue(p: Parsers)
    requires p.parseI32("50") == Some(50) && p.parseI32("abc") == None
    ensures ParseArguments(p, ["mandelbrot", "-i", "50", "-i", "abc"]) == Defaults.(iteration := 50)
  {
    var args := ["mandelbrot", "-i", "50", "-i", "abc"];
    assert FlagOf(args[1]) == Some(Iteration);
    assert FlagOf(args[2]) == None;
    assert FlagOf(args[3]) == Some(Iteration);
    assert FlagOf(args[4]) == None;
    assert Prefix(p, args, 1) == Defaults;
    assert Prefix(p, args, 2) == Defaults.(iteration := 50);
    assert Prefix(p, args, 3) == Defaults.(iteration := 50);
    assert Prefix(p, args, 4) == Defaults.(iteration := 50);
  }
}

=== FILE: colour.dfy ===
/** The `Color` struct (src/main.rs:4) and the per-pixel colour mapping of the
    second pass (src/main.rs:56-67), in exact `u8` arithmetic. */
module Colour {
  import opened Native

  /** An RGB triple; the base colour every non-inner pixel is scaled toward. */
  datatype Color = Color(r: u8, g: u8, b: u8)

  /** The colour of inner pixels. */
  const Black := Color(0, 0, 0)

  /** One channel: `((base / max as u8) * m as u8) as u8`. The final `as u8` is
      the identity on a `u8` product and is not written. */
  function Channel(base: u8, m: i32, max: i32, profile: Profile): (r: Outcome<u8>)
    ensures r == Panicked(DivideByZero) <==> AsU8(max) == 0
    ensures r.Panicked? && AsU8(max) != 0 ==> profile == Debug && r.panic == MultiplyOverflow
    ensures AsU8(max) != 0 ==>
              var q := base as int / AsU8(max) as int;
              && (r.Ok? ==> (r.value as int - q * AsU8(m) as int) % 0x100 == 0)
              && (q * AsU8(m) as int < 0x100 ==> r == Ok((q * AsU8(m) as int) as u8))
              && (profile == Debug && q * AsU8(m) as int >= 0x100 ==> r == Panicked(MultiplyOverflow))
  {
    match DivU8(base, AsU8(max))
    case Panicked(e) => Panicked(e)
    case Ok(q) => MulU8(q, AsU8(m), profile)
  }

  /** The colour of a pixel whose evaluator result is `m`: black for the sentinel,
      otherwise red, green and blue scaled in that order, the first panic winning. */
  function Colorize(base: Color, m: i32, max: i32, profile: Profile): (r: Outcome<Color>)
    ensures m == -1 ==> r == Ok(Black)
    ensures m != -1 ==> (r == Panicked(DivideByZero) <==> AsU8(max) == 0)
    ensures m != -1 && r.Ok? ==>
              && Channel(base.r, m, max, profile) == Ok(r.value.r)
              && Channel(base.g, m, max, profile) == Ok(r.value.g)
              && Channel(base.b, m, max, profile) == Ok(r.value.b)
    ensures m != -1 && r.Panicked? ==>
              || Channel(base.r, m, max, profile) == Panicked(r.panic)
              || Channel(base.g, m, max, profile) == Panicked(r.panic)
              || Channel(base.b, m, max, profile) == Panicked(r.panic)
  {
    if m != -1 then
      match Channel(base.r, m, max, profile)
      case Panicked(e) => Panicked(e)
      case Ok(red) =>
        match Channel(base.g, m, max, profile)
        case Panicked(e) => Panicked(e)
        case Ok(green) =>
          match Channel(base.b, m, max, profile)
          case Panicked(e) => Panicked(e)
          case Ok(blue) => Ok(Color(red, green, blue))
    else
      Ok(Black)
  }

  /** `q * m <= q * max` for `0 <= m <= max` and `q >= 0`. */
  lemma MulMonotone(q: int, m: int, max: int)
    requires q >= 0 && 0 <= m <= max
    ensures q * m <= q * max
  {
  }

  /** When `0 <= m <= max < 256` and `max > 0`, the product never overflows, both
      build profiles agree, and the channel is the exact `(base / max) * m`, which
      never exceeds the base. */
  lemma ChannelWithinBase(base: u8, m: i32, max: i32, profile: Profile)
    requires 0 <= m <= max < 0x100 && max > 0
    ensures Channel(base, m, max, profile).Ok?
    ensures Channel(base, m, max, profile).value as int == (base as int / max as int) * m as int
    ensures Channel(base, m, max, profile).value <= base
    ensures Channel(base, m, max, Debug) == Channel(base, m, max, Release)
  {
    var q := DivU8(base, AsU8(max)).value;
    MulMonotone(q as int, m as int, max as int);
    assert q as int * m as int <= base as int;
  }

  /** When the wrapped maximum exceeds the base, integer division already gives 0,
      so the channel is 0 whatever the evaluator result. */
  lemma ChannelDarkWhenMaxExceedsBase(base: u8, m: i32, max: i32, profile: Profile)
    requires AsU8(max) > base
    ensures Channel(base, m, max, profile) == Ok(0)
  {
    var q := DivU8(base, AsU8(max)).value;
    if q >= 1 {
      MulMonotone(AsU8(max) as int, 1, q as int);
    }
  }

  /** Whenever a debug build does not panic, a release build computes the same channel. */
  lemma ProfilesAgreeWithoutOverflow(base: u8, m: i32, max: i32)
    requires Channel(base, m, max, Debug).Ok?
    ensures Channel(base, m, max, Release) == Channel(base, m, max, Debug)
  {
  }

  /** Once the maximum passes 255 the casts wrap: with `max = 257` the divisor is 1,
      so a base of 255 at count 2 overflows, panicking in a debug build and
      wrapping to 254 in a release build. */
  lemma WrappedMaxOverflows()
    ensures Channel(255, 2, 257, Debug) == Panicked(MultiplyOverflow)
    ensures Channel(255, 2, 257, Release) == Ok(254)
  {
  }

  /** Linear scaling of a channel in wide arithmetic: `base * m / max`, clamped to
      `[0, base]`, with no division by zero and no overflow. */
  function ScaleChannel(base: u8, m: i32, max: i32): (c: u8)
    ensures c <= base
    ensures m <= 0 || max <= 0 ==> c == 0
    ensures 0 < max <= m ==> c == base
    ensures 0 <= m < max ==> c as int == base as int * m as int / max as int
  {
    if m <= 0 || max <= 0 then 0
    else if m >= max then base
    else
      ScaleBelowBase(base as int, m as int, max as int);
      (base as int * m as int / max as int) as u8
  }

  /** `b * m / max <= b` for `0 <= m <= max` and `max > 0`. */
  lemma ScaleBelowBase(b: int, m: int, max: int)
    requires b >= 0 && 0 <= m <= max && max > 0
    ensures 0 <= b * m / max <= b
  {
    MulMonotone(b, m, max);
    DivMonotone(b * m, b * max, max);
    MulDivCancel(b, max);
  }

  /** Dividing a multiple of `d` by `d` gives the factor back. */
  lemma MulDivCancel(a: int, d: int)
    requires d > 0
    ensures (a * d) / d == a
  {
    var q := (a * d) / d;
    assert d * (a - q) == (a * d) % d;
    if a - q >= 1 {
      MulMonotone(d, 1, a - q);
    } else if a - q <= -1 {
      MulMonotone(d, 1, q - a);
    }
  }

  /** Division by a positive number is monotone. */
  lemma DivMonotone(x: int, y: int, d: int)
    requires 0 <= x <= y && d > 0
    ensures 0 <= x / d <= y / d
  {
    if x / d > y / d {
      MulMonotone(d, y / d + 1, x / d);
    }
  }

  /** Scaling is monotone in the evaluator result. */
  lemma ScaleMonotone(base: u8, m1: i32, m2: i32, max: i32)
    requires m1 <= m2
    ensures ScaleChannel(base, m1, max) <= ScaleChannel(base, m2, max)
  {
    if 0 < m1 && 0 < max && m2 < max {
      MulMonotone(base as int, m1 as int, m2 as int);
      DivMonotone(base as int * m1 as int, base as int * m2 as int, max as int);
    }
  }

  /** The pixel colour under linear scaling: black for the sentinel, otherwise each
      channel scaled from the base. */
  function ColorizeScaled(base: Color, m: i32, max: i32): (c: Color)
    ensures m == -1 ==> c == Black
    ensures c.r <= base.r && c.g <= base.g && c.b <= base.b
    ensures m != -1 && 0 < max <= m ==> c == base
  {
    if m == -1 then Black
    else Color(ScaleChannel(base.r, m, max), ScaleChannel(base.g, m, max), ScaleChannel(base.b, m, max))
  }

  /** `(b / d) * m <= (b * m) / d` for non-negative `b`, `m` and positive `d`. */
  lemma QuotientFirstBelow(b: int, m: int, d: int)
    requires b >= 0 && m >= 0 && d > 0
    ensures (b / d) * m <= (b * m) / d
  {
    var q := b / d;
    var qd := q * d;
    assert qd <= b;
    MulMonotone(m, qd, b);
    var qm := q * m;
    assert qm * d == m * qd;
    DivMonotone(qm * d, b * m, d);
    MulDivCancel(qm, d);
  }

  /** Truncating the quotient first never gives a brighter channel than linear
      scaling: `(base / max) * m <= base * m / max` for `0 <= m <= max < 256`. */
  lemma TruncationNeverBrighter(base: u8, m: i32, max: i32, profile: Profile)
    requires 0 <= m <= max < 0x100 && max > 0
    ensures Channel(base, m, max, profile).Ok?
    ensures Channel(base, m, max, profile).value <= ScaleChannel(base, m, max)
  {
    ChannelWithinBase(base, m, max, profile);
    if m < max {
      QuotientFirstBelow(base as int, m as int, max as int);
    }
  }
}

=== FILE: evaluator.dfy ===
/** The escape-time evaluator `mandelbrot` (src/main.rs:74-95).

    The floating-point update `z := z*z + c` and the magnitude test `|z|^2 <= 4.0`
    are abstracted into a `step` function and a `bounded` predicate over a state
    type `S`; what is modelled exactly is the counting: test, then update, then
    count, with the sentinel -1 once the counter reaches the cap. */
module Evaluator {
  import opened Native

  /** The state after `k` updates of the starting state `z0`. */
  function Orbit<S>(step: S -> S, z0: S, k: nat): S
  {
    if k == 0 then z0 else step(Orbit(step, z0, k - 1))
  }

  /** The first `n` states of the orbit all pass the magnitude test. */
  ghost predicate BoundedFor<S>(step: S -> S, bounded: S -> bool, z0: S, n: int)
  {
    forall j: nat :: j < n ==> bounded(Orbit(step, z0, j))
  }

  /** How many times the loop body can run before the sentinel is returned: the
      body runs at least once when the first test passes, however small the cap. */
  function Cap(iterNum: i32): (n: int)
    ensures n >= 1
    ensures iterNum >= 1 ==> n == iterNum as int
  {
    if iterNum < 1 then 1 else iterNum as int
  }

  /** What the evaluator returns: -1 when the first `Cap(iterNum)` states all pass
      the test, and otherwise the index of the first state that fails it. */
  ghost predicate IsEscapeResult<S>(step: S -> S, bounded: S -> bool, z0: S, iterNum: i32, r: i32)
  {
    || (r == -1 && BoundedFor(step, bounded, z0, Cap(iterNum)))
    || (0 <= r as int < Cap(iterNum) && BoundedFor(step, bounded, z0, r as int) && !bounded(Orbit(step, z0, r as nat)))
  }

  /** At most one result satisfies `IsEscapeResult`. */
  lemma EscapeResultUnique<S>(step: S -> S, bounded: S -> bool, z0: S, iterNum: i32, r1: i32, r2: i32)
    requires IsEscapeResult(step, bounded, z0, iterNum, r1)
    requires IsEscapeResult(step, bounded, z0, iterNum, r2)
    ensures r1 == r2
  {
  }

  /** The loop of `mandelbrot`, entered with `k` updates done and `z` the current state. */
  function EscapeFrom<S>(step: S -> S, bounded: S -> bool, ghost z0: S, z: S, k: i32, iterNum: i32): (r: i32)
    requires 0 <= k as int < Cap(iterNum)
    requires z == Orbit(step, z0, k as nat)
    requires BoundedFor(step, bounded, z0, k as int)
    ensures IsEscapeResult(step, bounded, z0, iterNum, r)
    decreases Cap(iterNum) - k as int
  {
    if !bounded(z) then k
    else if k + 1 >= iterNum then -1
    else EscapeFrom(step, bounded, z0, step(z), k + 1, iterNum)
  }

  /** `mandelbrot(x, y, iter_num)` with `z0` the starting point `(x, y)`. */
  function EscapeTime<S>(step: S -> S, bounded: S -> bool, z0: S, iterNum: i32): (r: i32)
    ensures IsEscapeResult(step, bounded, z0, iterNum, r)
    ensures r == -1 || 0 <= r as int < Cap(iterNum)
    ensures r == 0 <==> !bounded(z0)
    ensures iterNum <= 1 ==> r == 0 || r == -1
  {
    EscapeFrom(step, bounded, z0, z0, 0, iterNum)
  }

  /** The loop of src/main.rs:76-94 statement by statement. `runs` counts the
      executions of the loop body. */
  method Mandelbrot<S>(step: S -> S, bounded: S -> bool, z0: S, iterNum: i32) returns (iter: i32, ghost runs: nat)
    ensures IsEscapeResult(step, bounded, z0, iterNum, iter)
    ensures iter == EscapeTime(step, bounded, z0, iterNum)
    ensures 1 <= runs <= Cap(iterNum) || (runs == 0 && iter == 0)
    ensures iter != -1 ==> runs == iter as int
    ensures iter == -1 ==> runs == Cap(iterNum)
  {
    var z := z0;
    iter := 0;
    runs := 0;
    while bounded(z)
      invariant 0 <= iter as int < Cap(iterNum)
      invariant runs == iter as int
      invariant z == Orbit(step, z0, iter as nat)
      invariant BoundedFor(step, bounded, z0, iter as int)
      decreases Cap(iterNum) - iter as int
    {
      z := step(z);
      iter := iter + 1;
      runs := runs + 1;
      if iter >= iterNum {
        iter := -1;
        break;
      }
    }
    EscapeResultUnique(step, bounded, z0, iterNum, iter, EscapeTime(step, bounded, z0, iterNum));
  }

  /** A starting state whose whole orbit passes the test gets the sentinel. */
  lemma ForeverBoundedIsSentinel<S>(step: S -> S, bounded: S -> bool, z0: S, iterNum: i32)
    requires forall k: nat :: bounded(Orbit(step, z0, k))
    ensures EscapeTime(step, bounded, z0, iterNum) == -1
  {
  }

  /** The orbit of a fixed point of `step` never moves. */
  lemma {:induction false} FixedPointOrbit<S>(step: S -> S, z0: S, k: nat)
    requires step(z0) == z0
    ensures Orbit(step, z0, k) == z0
  {
    if k > 0 {
      FixedPointOrbit(step, z0, k - 1);
    }
  }

  /** A fixed point that passes the test (the origin, for `z*z + 0`) gets the sentinel. */
  lemma FixedPointIsSentinel<S>(step: S -> S, bounded: S -> bool, z0: S, iterNum: i32)
    requires step(z0) == z0 && bounded(z0)
    ensures EscapeTime(step, bounded, z0, iterNum) == -1
  {
    forall k: nat ensures bounded(Orbit(step, z0, k)) {
      FixedPointOrbit(step, z0, k);
    }
    ForeverBoundedIsSentinel(step, bounded, z0, iterNum);
  }

  /** Raising the cap never changes an escape count already found, and a state that
      got the sentinel under a cap escapes, if at all, only at or beyond that cap. */
  lemma CapMonotone<S>(step: S -> S, bounded: S -> bool, z0: S, small: i32, large: i32)
    requires small <= large
    ensures var a := EscapeTime(step, bounded, z0, small);
            var b := EscapeTime(step, bounded, z0, large);
            (a != -1 ==> b == a) && (a == -1 && b != -1 ==> b as int >= Cap(small))
  {
    var a := EscapeTime(step, bounded, z0, small);
    var b := EscapeTime(step, bounded, z0, large);
    if a != -1 {
      assert IsEscapeResult(step, bounded, z0, large, a);
      EscapeResultUnique(step, bounded, z0, large, a, b);
    }
  }

  /** The point `c` of the complex plane, over exact reals. */
  datatype Complex = Complex(re: real, im: real)

  /** Complex addition. */
  function Add(a: Complex, b: Complex): Complex
  {
    Complex(a.re + b.re, a.im + b.im)
  }

  /** Complex multiplication. */
  function Mul(a: Complex, b: Complex): Complex
  {
    Complex(a.re * b.re - a.im * b.im, a.re * b.im + a.im * b.re)
  }

  /** One update (src/main.rs:83-84) over exact reals. From the origin it reaches
      `c`, so starting the orbit at `c` skips one update from 0. */
  function PlaneStep(c: Complex): (f: Complex -> Complex)
    ensures f(Complex(0.0, 0.0)) == c
  {
    (z: Complex) => Complex(c.re + z.re * z.re - z.im * z.im, c.im + 2.0 * z.re * z.im)
  }

  /** The program's expanded formula is the complex `z*z + c`. */
  lemma PlaneStepIsSquarePlusC(c: Complex, z: Complex)
    ensures PlaneStep(c)(z) == Add(Mul(z, z), c)
  {
    var w := PlaneStep(c)(z);
    var v := Add(Mul(z, z), c);
    var xy := z.re * z.im;
    assert z.im * z.re == xy;
    assert 2.0 * z.re * z.im == xy + xy;
    assert w.im == c.im + 2.0 * z.re * z.im;
    assert v.im == xy + xy + c.im;
    assert w.re == v.re;
  }

  /** The test `re*re + im*im <= 4.0` of src/main.rs:81, over exact reals: a value
      that passes it lies in the square `[-2, 2] x [-2, 2]`. */
  function WithinRadius(z: Complex): (b: bool)
    ensures b ==> -2.0 <= z.re <= 2.0 && -2.0 <= z.im <= 2.0
  {
    SquareBound(z.re, z.im);
    SquareBound(z.im, z.re);
    z.re * z.re + z.im * z.im <= 4.0
  }

  /** A coordinate whose square, plus another square, is at most 4 lies in `[-2, 2]`. */
  lemma SquareBound(x: real, y: real)
    ensures x * x + y * y <= 4.0 ==> -2.0 <= x <= 2.0
  {
    assert y * y >= 0.0;
    if x > 2.0 {
      assert x * x > 2.0 * x > 4.0;
    } else if x < -2.0 {
      assert x * x > -2.0 * x > 4.0;
    }
  }

  /** The evaluator on the complex plane, starting from `z0 = c`: -1 or a count
      below the cap, and 0 exactly when `c` itself lies outside the radius. */
  function Mandel(c: Complex, iterNum: i32): (r: i32)
    ensures r == -1 || 0 <= r as int < Cap(iterNum)
    ensures r == 0 <==> c.re * c.re + c.im * c.im > 4.0
  {
    EscapeTime(PlaneStep(c), WithinRadius, c, iterNum)
  }

  /** A pixel's evaluator state for the renderer: its own point `c` and the current
      value `z`. One step updates `z` and keeps `c`, so a single step function
      serves every pixel of an image. */
  datatype PixelState = PixelState(c: Complex, z: Complex)

  function PixelStep(s: PixelState): (t: PixelState)
    ensures t.c == s.c
  {
    PixelState(s.c, PlaneStep(s.c)(s.z))
  }

  function PixelBounded(s: PixelState): bool
  {
    WithinRadius(s.z)
  }

  /** The pixel-state orbit is the plane orbit of the pixel's own point. */
  lemma {:induction false} PixelOrbit(c: Complex, k: nat)
    ensures Orbit(PixelStep, PixelState(c, c), k) == PixelState(c, Orbit(PlaneStep(c), c, k))
  {
    if k > 0 {
      PixelOrbit(c, k - 1);
    }
  }

  /** Started at `(c, c)`, the shared pixel step gives each pixel the count of its
      own point, as the per-pixel calls of src/main.rs:41 and 53 do. */
  lemma PixelStepIsMandel(c: Complex, iterNum: i32)
    ensures EscapeTime(PixelStep, PixelBounded, PixelState(c, c), iterNum) == Mandel(c, iterNum)
  {
    var s0 := PixelState(c, c);
    var r := Mandel(c, iterNum);
    forall k: nat ensures Orbit(PixelStep, s0, k) == PixelState(c, Orbit(PlaneStep(c), c, k)) {
      PixelOrbit(c, k);
    }
    assert IsEscapeResult(PixelStep, PixelBounded, s0, iterNum, r);
    EscapeResultUnique(PixelStep, PixelBounded, s0, iterNum, r, EscapeTime(PixelStep, PixelBounded, s0, iterNum));
  }

  /** The origin is a fixed point inside the radius: it never escapes. */
  lemma OriginNeverEscapes(iterNum: i32)
    ensures Mandel(Complex(0.0, 0.0), iterNum) == -1
  {
    var c := Complex(0.0, 0.0);
    assert PlaneStep(c)(c) == c;
    FixedPointIsSentinel(PlaneStep(c), WithinRadius, c, iterNum);
  }

  /** `(2, 2)` has squared magnitude 8, so the body never runs and the result is 0. */
  lemma OutsidePointIsZero(iterNum: i32)
    ensures Mandel(Complex(2.0, 2.0), iterNum) == 0
  {
  }

  /** `c = 1` runs 1, 2, 5: the state 2 sits exactly on the radius and still counts
      as bounded, so the point escapes at count 2 when the cap allows it. */
  lemma BoundaryCountsAsBounded(iterNum: i32)
    ensures iterNum > 2 ==> Mandel(Complex(1.0, 0.0), iterNum) == 2
    ensures iterNum <= 2 ==> Mandel(Complex(1.0, 0.0), iterNum) == -1
  {
    var c := Complex(1.0, 0.0);
    var f := PlaneStep(c);
    assert Orbit(f, c, 0) == Complex(1.0, 0.0);
    assert Orbit(f, c, 1) == Complex(2.0, 0.0);
    assert Orbit(f, c, 2) == Complex(5.0, 0.0);
    assert WithinRadius(Orbit(f, c, 1));
    var r := Mandel(c, iterNum);
    if iterNum > 2 {
      assert IsEscapeResult(f, WithinRadius, c, iterNum, 2);
      EscapeResultUnique(f, WithinRadius, c, iterNum, 2, r);
    } else {
      assert IsEscapeResult(f, WithinRadius, c, iterNum, -1);
      EscapeResultUnique(f, WithinRadius, c, iterNum, -1, r);
    }
  }
}

=== FILE: native.dfy ===
/** Rust's fixed-width integers and the two ways their arithmetic can go wrong:
    a panic (division by zero, or an overflowing multiplication in a debug build)
    or a silent wrap-around (an overflowing multiplication in a release build). */
module Native {

  /** Rust's `i32`. */
  newtype i32 = x: int | -0x8000_0000 <= x < 0x8000_0000

  /** Rust's `u8`. */
  newtype u8 = x: int | 0 <= x < 0x100

  /** A value that may be absent: what the abstract string parsers return. */
  datatype Option<T> = None | Some(value: T)

  /** Why a computation panicked. */
  datatype Panic = DivideByZero | MultiplyOverflow

  /** The value of a computation that may panic. */
  datatype Outcome<T> = Ok(value: T) | Panicked(panic: Panic)

  /** Overflow checks are on in a debug build and off (wrapping) in a release build. */
  datatype Profile = Debug | Release

  /** The cast `x as u8`: keeps the low eight bits of the two's complement form. */
  function AsU8(x: i32): (b: u8)
    ensures (b as int - x as int) % 0x100 == 0
    ensures 0 <= x < 0x100 ==> b as int == x as int
  {
    (x as int % 0x100) as u8
  }

  /** `a / b` on `u8`: truncating division, which panics when `b` is zero. */
  function DivU8(a: u8, b: u8): (r: Outcome<u8>)
    ensures r.Panicked? <==> b == 0
    ensures r.Panicked? ==> r.panic == DivideByZero
    ensures r.Ok? ==> r.value as int * b as int <= a as int < (r.value as int + 1) * b as int
  {
    if b == 0 then Panicked(DivideByZero) else Ok(a / b)
  }

  /** `a * b` on `u8`: exact when the product fits, otherwise a panic in a debug
      build and the product modulo 256 in a release build. */
  function MulU8(a: u8, b: u8, profile: Profile): (r: Outcome<u8>)
    ensures r.Panicked? <==> profile == Debug && a as int * b as int >= 0x100
    ensures r.Panicked? ==> r.panic == MultiplyOverflow
    ensures r.Ok? ==> (r.value as int - a as int * b as int) % 0x100 == 0
    ensures a as int * b as int < 0x100 ==> r == Ok((a as int * b as int) as u8)
  {
    var wide := a as int * b as int;
    if wide < 0x100 then Ok(wide as u8)
    else if profile == Debug then Panicked(MultiplyOverflow)
    else Ok((wide % 0x100) as u8)
  }
}

=== FILE: renderer.dfy ===
/** The two passes of `main` (src/main.rs:29-69): a first sweep that folds every
    evaluator result into `max`, and a second sweep that colours each pixel from
    its result and `max`.

    The image is the sequence of evaluator starting states of its pixels in the
    order `enumerate_pixels` visits them. One `step` serves every pixel, so each
    state carries its own point `c` (`Evaluator.PixelStep` is that instantiation);
    the pixel-to-plane mapping is floating point and is a parameter of the model
    (the states themselves). */
module Renderer {
  import opened Native
  import opened Evaluator
  import opened Colour

  /** The evaluator result of every pixel, in visiting order. Both passes call the
      evaluator afresh; it is a pure function, so both see the same results. */
  function Sweep<S>(step: S -> S, bounded: S -> bool, points: seq<S>, iterNum: i32): (ms: seq<i32>)
    ensures |ms| == |points|
    ensures forall i :: 0 <= i < |points| ==> ms[i] == EscapeTime(step, bounded, points[i], iterNum)
    ensures forall i :: 0 <= i < |ms| ==> ms[i] == -1 || 0 <= ms[i] as int < Cap(iterNum)
  {
    seq(|points|, i requires 0 <= i < |points| => EscapeTime(step, bounded, points[i], iterNum))
  }

  /** `max` is the largest result, or 0 when no result is positive. */
  ghost predicate IsScanMax(ms: seq<i32>, max: i32)
  {
    && 0 <= max
    && (forall i :: 0 <= i < |ms| ==> ms[i] <= max)
    && (max == 0 || max in ms)
  }

  /** The first pass: `max` starts at 0 and takes every strictly larger result in
      visiting order. */
  function MaxScan(ms: seq<i32>): (max: i32)
    ensures IsScanMax(ms, max)
  {
    if |ms| == 0 then 0
    else
      var prev := MaxScan(ms[..|ms| - 1]);
      var m := ms[|ms| - 1];
      assert ms == ms[..|ms| - 1] + [m];
      if m > prev then m else prev
  }

  /** The first pass's result is the only value with the `IsScanMax` property. */
  lemma ScanMaxUnique(ms: seq<i32>, a: i32, b: i32)
    requires IsScanMax(ms, a) && IsScanMax(ms, b)
    ensures a == b
  {
  }

  /** The visiting order does not matter: any reordering of the results gives
      the same maximum. */
  lemma MaxScanOrderIndependent(s: seq<i32>, t: seq<i32>)
    requires multiset(s) == multiset(t)
    ensures MaxScan(s) == MaxScan(t)
  {
    var a := MaxScan(s);
    forall i | 0 <= i < |t| ensures t[i] <= a {
      assert t[i] in multiset(t);
      assert t[i] in s;
    }
    if a != 0 {
      assert a in multiset(s);
    }
    ScanMaxUnique(t, a, MaxScan(t));
  }

  /** Where the elements of `s` sit after `x` is inserted at position `k`. */
  lemma InsertedAt(s: seq<i32>, k: nat, x: i32)
    requires k <= |s|
    ensures |s[..k] + [x] + s[k..]| == |s| + 1
    ensures (s[..k] + [x] + s[k..])[k] == x
    ensures forall i :: 0 <= i < k ==> (s[..k] + [x] + s[k..])[i] == s[i]
    ensures forall i :: k <= i < |s| ==> (s[..k] + [x] + s[k..])[i + 1] == s[i]
  {
  }

  /** A sentinel result anywhere in the sweep never changes the maximum. */
  lemma SentinelNeverChangesMax(s: seq<i32>, k: nat)
    requires k <= |s|
    ensures MaxScan(s[..k] + [-1] + s[k..]) == MaxScan(s)
  {
    var u := s[..k] + [-1] + s[k..];
    InsertedAt(s, k, -1);
    ScanMaxAfterInsert(s, u, k, MaxScan(s));
    ScanMaxUnique(u, MaxScan(s), MaxScan(u));
  }

  /** `max` of `s` is still the scan maximum of `u`, which is `s` with a sentinel
      inserted at position `k`. */
  lemma ScanMaxAfterInsert(s: seq<i32>, u: seq<i32>, k: nat, a: i32)
    requires k <= |s| && |u| == |s| + 1 && u[k] == -1
    requires forall i :: 0 <= i < k ==> u[i] == s[i]
    requires forall i :: k <= i < |s| ==> u[i + 1] == s[i]
    requires IsScanMax(s, a)
    ensures IsScanMax(u, a)
  {
    forall i | 0 <= i < |u| ensures u[i] <= a {
      if i > k {
        assert u[(i - 1) + 1] == s[i - 1];
      }
    }
    if a != 0 {
      var j :| 0 <= j < |s| && s[j] == a;
      if j < k {
        assert u[j] == a;
      } else {
        assert u[j + 1] == a;
      }
    }
  }

  /** The first pass over an image: non-negative and below the cap, hence 0 when
      the cap is at most 1. */
  lemma FirstPassBound<S>(step: S -> S, bounded: S -> bool, points: seq<S>, iterNum: i32)
    ensures 0 <= MaxScan(Sweep(step, bounded, points, iterNum)) as int < Cap(iterNum)
    ensures iterNum <= 1 ==> MaxScan(Sweep(step, bounded, points, iterNum)) == 0
  {
    var ms := Sweep(step, bounded, points, iterNum);
    var max := MaxScan(ms);
    if max != 0 {
      var j :| 0 <= j < |ms| && ms[j] == max;
      assert ms[j] == EscapeTime(step, bounded, points[j], iterNum);
    }
  }

  /** The second pass: each result coloured in visiting order; the first pixel that
      panics aborts the whole pass with its panic. */
  function ColorizeAll(ms: seq<i32>, base: Color, max: i32, profile: Profile): (r: Outcome<seq<Color>>)
    ensures r.Ok? <==> forall i :: 0 <= i < |ms| ==> Colorize(base, ms[i], max, profile).Ok?
    ensures r.Ok? ==> |r.value| == |ms|
    ensures r.Ok? ==> forall i :: 0 <= i < |ms| ==> Colorize(base, ms[i], max, profile) == Ok(r.value[i])
    ensures r.Panicked? ==>
              exists i :: && 0 <= i < |ms|
                          && Colorize(base, ms[i], max, profile) == Panicked(r.panic)
                          && forall j :: 0 <= j < i ==> Colorize(base, ms[j], max, profile).Ok?
    ensures r == Panicked(DivideByZero) <==> AsU8(max) == 0 && exists i :: 0 <= i < |ms| && ms[i] != -1
  {
    if |ms| == 0 then Ok([])
    else
      match Colorize(base, ms[0], max, profile)
      case Panicked(e) => Panicked(e)
      case Ok(c) =>
        var rest := ColorizeAll(ms[1..], base, max, profile);
        assert forall i :: 1 <= i < |ms| ==> ms[i] == ms[1..][i - 1];
        match rest
        case Panicked(e) =>
          var k :| && 0 <= k < |ms[1..]|
                   && Colorize(base, ms[1..][k], max, profile) == Panicked(e)
                   && forall j :: 0 <= j < k ==> Colorize(base, ms[1..][j], max, profile).Ok?;
          assert Colorize(base, ms[k + 1], max, profile) == Panicked(e);
          Panicked(e)
        case Ok(cs) => Ok([c] + cs)
  }

  /** The whole renderer: the first pass computes `max`, the second colours. */
  function Render<S>(step: S -> S, bounded: S -> bool, points: seq<S>, iterNum: i32, base: Color, profile: Profile): (r: Outcome<seq<Color>>)
    ensures r.Ok? ==> |r.value| == |points|
    ensures r.Ok? ==>
              forall i :: 0 <= i < |points| && EscapeTime(step, bounded, points[i], iterNum) == -1 ==> r.value[i] == Black
    ensures r == Panicked(DivideByZero) <==>
              && AsU8(MaxScan(Sweep(step, bounded, points, iterNum))) == 0
              && exists i :: 0 <= i < |points| && EscapeTime(step, bounded, points[i], iterNum) != -1
    ensures r.Ok? ==>
              forall i :: 0 <= i < |points| ==>
                Colorize(base, EscapeTime(step, bounded, points[i], iterNum), MaxScan(Sweep(step, bounded, points, iterNum)), profile)
                  == Ok(r.value[i])
    ensures r.Panicked? ==> r.panic == DivideByZero || profile == Debug
    ensures r.Ok? <==>
              forall i :: 0 <= i < |points| ==>
                Colorize(base, EscapeTime(step, bounded, points[i], iterNum), MaxScan(Sweep(step, bounded, points, iterNum)), profile).Ok?
  {
    var ms := Sweep(step, bounded, points, iterNum);
    var max := MaxScan(ms);
    ColorizeAll(ms, base, max, profile)
  }

  /** With a cap of at most 256 and a positive maximum, rendering never panics,
      both build profiles give the same image, and every pixel is the exact
      `(base / max) * m` of each channel, never brighter than the base. */
  lemma RenderWithinBase<S>(step: S -> S, bounded: S -> bool, points: seq<S>, iterNum: i32, base: Color, profile: Profile)
    requires iterNum <= 0x100
    requires MaxScan(Sweep(step, bounded, points, iterNum)) > 0
    ensures Render(step, bounded, points, iterNum, base, profile).Ok?
    ensures Render(step, bounded, points, iterNum, base, Debug) == Render(step, bounded, points, iterNum, base, Release)
    ensures forall i :: 0 <= i < |points| ==>
              var c := Render(step, bounded, points, iterNum, base, profile).value[i];
              c.r <= base.r && c.g <= base.g && c.b <= base.b
    ensures forall i :: 0 <= i < |points| && EscapeTime(step, bounded, points[i], iterNum) != -1 ==>
              var m := EscapeTime(step, bounded, points[i], iterNum) as int;
              var max := MaxScan(Sweep(step, bounded, points, iterNum)) as int;
              var c := Render(step, bounded, points, iterNum, base, profile).value[i];
              && c.r as int == (base.r as int / max) * m
              && c.g as int == (base.g as int / max) * m
              && c.b as int == (base.b as int / max) * m
  {
    var ms := Sweep(step, bounded, points, iterNum);
    var max := MaxScan(ms);
    FirstPassBound(step, bounded, points, iterNum);
    forall i, p: Profile | 0 <= i < |ms|
      ensures Colorize(base, ms[i], max, p).Ok?
      ensures Colorize(base, ms[i], max, p) == Colorize(base, ms[i], max, Debug)
      ensures var c := Colorize(base, ms[i], max, p).value; c.r <= base.r && c.g <= base.g && c.b <= base.b
      ensures ms[i] != -1 ==>
                var c := Colorize(base, ms[i], max, p).value;
                && c.r as int == (base.r as int / max as int) * ms[i] as int
                && c.g as int == (base.g as int / max as int) * ms[i] as int
                && c.b as int == (base.b as int / max as int) * ms[i] as int
    {
      if ms[i] != -1 {
        ChannelWithinBase(base.r, ms[i], max, p);
        ChannelWithinBase(base.g, ms[i], max, p);
        ChannelWithinBase(base.b, ms[i], max, p);
      }
    }
    var d := Render(step, bounded, points, iterNum, base, Debug).value;
    var e := Render(step, bounded, points, iterNum, base, Release).value;
    assert forall i :: 0 <= i < |ms| ==> Ok(d[i]) == Colorize(base, ms[i], max, Debug) == Ok(e[i]);
    assert d == e;
  }

  /** With a cap of at most 1 every result is 0 or -1, so `max` stays 0, and the
      first pixel whose starting point fails the magnitude test divides by zero. */
  lemma RenderPanicsWhenCapAtMostOne<S>(step: S -> S, bounded: S -> bool, points: seq<S>, iterNum: i32, base: Color, profile: Profile)
    requires iterNum <= 1
    requires exists i :: 0 <= i < |points| && !bounded(points[i])
    ensures Render(step, bounded, points, iterNum, base, profile) == Panicked(DivideByZero)
  {
    FirstPassBound(step, bounded, points, iterNum);
    var i :| 0 <= i < |points| && !bounded(points[i]);
    assert EscapeTime(step, bounded, points[i], iterNum) == 0;
  }

  /** The renderer with linear channel scaling: total, no division by zero, no
      overflow, whatever the cap. */
  function RenderScaled<S>(step: S -> S, bounded: S -> bool, points: seq<S>, iterNum: i32, base: Color): (img: seq<Color>)
    ensures |img| == |points|
    ensures forall i :: 0 <= i < |points| && EscapeTime(step, bounded, points[i], iterNum) == -1 ==> img[i] == Black
    ensures forall i :: 0 <= i < |points| ==> img[i].r <= base.r && img[i].g <= base.g && img[i].b <= base.b
    ensures forall i :: 0 <= i < |points| && 0 < EscapeTime(step, bounded, points[i], iterNum) == MaxScan(Sweep(step, bounded, points, iterNum)) ==>
              img[i] == base
  {
    var ms := Sweep(step, bounded, points, iterNum);
    var max := MaxScan(ms);
    seq(|ms|, i requires 0 <= i < |ms| => ColorizeScaled(base, ms[i], max))
  }

  /** Wherever the program's renderer succeeds with a cap of at most 256, each of its
      channels is at most the linearly scaled one; with a positive maximum it
      always succeeds. With a maximum of 0 it succeeds only on an all-inner image,
      which both renderers paint black. */
  lemma RenderNeverBrighterThanScaled<S>(step: S -> S, bounded: S -> bool, points: seq<S>, iterNum: i32, base: Color, profile: Profile)
    requires iterNum <= 0x100
    ensures MaxScan(Sweep(step, bounded, points, iterNum)) > 0 ==> Render(step, bounded, points, iterNum, base, profile).Ok?
    ensures Render(step, bounded, points, iterNum, base, profile).Ok? ==>
              forall i :: 0 <= i < |points| ==>
                var c := Render(step, bounded, points, iterNum, base, profile).value[i];
                var s := RenderScaled(step, bounded, points, iterNum, base)[i];
                c.r <= s.r && c.g <= s.g && c.b <= s.b
  {
    var ms := Sweep(step, bounded, points, iterNum);
    var max := MaxScan(ms);
    FirstPassBound(step, bounded, points, iterNum);
    forall i | 0 <= i < |ms| && max > 0
      ensures Colorize(base, ms[i], max, profile).Ok?
      ensures ms[i] != -1 ==>
                var c := Colorize(base, ms[i], max, profile).value;
                var s := ColorizeScaled(base, ms[i], max);
                c.r <= s.r && c.g <= s.g && c.b <= s.b
    {
      if ms[i] != -1 {
        TruncationNeverBrighter(base.r, ms[i], max, profile);
        TruncationNeverBrighter(base.g, ms[i], max, profile);
        TruncationNeverBrighter(base.b, ms[i], max, profile);
      }
    }
  }
}
